=== FILE: README.md ===
# 2-opt local search for the travelling salesman problem

This project models the solver of `TSPSolver.java` and proves properties of the model. The solver
builds a tour of the `N` cities of an instance as a list of `N + 1` city indices. The list starts at
city 0 and the closing entry returns to it. The solver then improves the list by 2-opt moves until its
time runs out:

- `initialisation` builds the first list by nearest neighbour: from the last city, take the closest
  city not yet listed, the lowest index among equally close ones, and close the list with 0.
- `RenverseParcours(i, j, parcours)` reverses the entries at positions `i..j`.
- `gain(t, i, j)` is the change of cost of that reversal, read from its four boundary edges. The
  neighbours are taken modulo the list length.
- One pass of `solve` is a sweep, a measure and an update:
  - The sweep visits every pair `1 <= i < j <= N` in order and reverses exactly the windows whose gain
    is negative.
  - The measure is the open path length of the result.
  - The best list and its distance are updated only when the measure is strictly shorter; the list of
    tried swaps is then emptied.
- When a sweep brings no improvement, a random pair of positions is swapped in the best list. The pair
  must differ in its two positions and must not have been tried before; both of its orientations are
  recorded.
- When the first draw and the next 999 redraws are all rejected, the search restarts from the
  nearest-neighbour list scrambled by 100000 random swaps. A 1000th redraw is made but never used. The best distance survives the restart.

The modules follow the solver's parts:

| file | module | models |
|---|---|---|
| `distances.dfy` | `Distances` | the instance: number of cities and distance oracle |
| `tours.dfy` | `Tours` | path and cycle lengths, the measure loop |
| `reversal.dfy` | `Reversal` | `RenverseParcours` |
| `gain.dfy` | `TwoOptGain` | `gain` |
| `sweep.dfy` | `TwoOptSweep` | the nested sweep loops of `solve` |
| `nearest.dfy` | `NearestNeighbour` | `initialisation` |
| `search.dfy` | `Search` | the loop of `solve`: best update, perturbation, restart |

Each loop of the source, other than the element-by-element copies of one list into another, becomes a
method with its loop and invariants. Those copies become slices of sequence values and record updates. The method is proved equal to a
specification function, for example `Sweep` against `SweepFrom` and `RenverseParcours` against
`Reversed`. The lemmas state what the source promises about those functions.

Randomness and the clock are inputs. Each pass of `solve`'s loop reads its random numbers from a
`Round` value:

- 1001 pairs for the first draw and the 1000 redraws;
- 100000 pairs for the scramble.

`Solve` runs one pass per round. It returns the best distance and the published list, along with ghost
outputs: the nearest-neighbour list it started from, every measure it took, and the state after each
pass. Each state follows from the one before by `Next`: the sweep and best update of `Improved`, then,
when the pass brought no improvement, the swap or restart of `Perturbed`.

## Model

| member | source | states |
|---|---|---|
| Tours.MeasurePath | src/tsp/TSPSolver.java:212-216 | the measure is the open path length: the sum of the distances between consecutive entries |
| Reversal.Rev | src/tsp/TSPSolver.java:80-82 | position k of the reversed window holds the entry at position \|s\| - 1 - k |
| Reversal.RevPermutes | src/tsp/TSPSolver.java:80-82 | the reversed window holds the same entries |
| Reversal.Reversed | src/tsp/TSPSolver.java:76-96 | the reversal keeps the length of the list |
| Reversal.ReversedAt | src/tsp/TSPSolver.java:76-96 | positions before i and after j are unchanged; position k in i..j holds the old entry i + j - k |
| Reversal.RenverseParcours | src/tsp/TSPSolver.java:76-96 | the three copy loops (reversed window, prefix, suffix) produce exactly the reversal of positions i..j |
| Reversal.ReversedWindow | src/tsp/TSPSolver.java:84-92 | prefix, then a window listing p[j] down to p[i], then suffix, is the reversal |
| Reversal.ReversedParts | src/tsp/TSPSolver.java:88-92 | the reversal is the prefix, the reversed window and the suffix, joined |
| Reversal.ReversedPermutes | src/tsp/TSPSolver.java:76-96 | a reversal only rearranges the entries (same multiset) |
| Reversal.ReversedInvolution | src/tsp/TSPSolver.java:76-96 | reversing the same window twice gives the list back |
| Reversal.ReversedExample | src/tsp/TSPSolver.java:69 | on [2,3,1,4], reversing positions 1..3 gives [2,4,1,3] |
| Reversal.PathLengthRev | src/tsp/TSPSolver.java:76-96 | with symmetric distances a reversed path has the same length |
| TwoOptGain.Gain | src/tsp/TSPSolver.java:110-117 | the gain of reversing positions i..j: the two new edges (t[i-1], t[j]) and (t[i], t[j+1]) minus the two removed ones, where position i-1 wraps to the last position when i = 0 and position j+1 wraps to 0 when j is the last position |
| TwoOptGain.ClosingGainNonNegative | src/tsp/TSPSolver.java:113-117 | on a symmetric metric instance a window ending at the closing entry of a list that starts and ends with the same city has gain >= 0 |
| TwoOptGain.ReversedInteriorLength | src/tsp/TSPSolver.java:76-96 | reversing an interior window changes the path length by its two new boundary edges minus the two old ones |
| TwoOptGain.ReversedTailLength | src/tsp/TSPSolver.java:76-96 | reversing a window that ends at the last position changes the path length by one boundary edge |
| TwoOptGain.GainIsPathDelta | src/tsp/TSPSolver.java:113-117 | for 1 <= i < j and j + 1 < \|t\|, with symmetric distances, the gain is exactly the change of the open path length |
| TwoOptGain.GainIsCycleDelta | src/tsp/TSPSolver.java:113-117 | for all 1 <= i < j < \|t\|, with symmetric distances, the gain is exactly the change of the length of the list read as a cycle |
| TwoOptSweep.TryMove | src/tsp/TSPSolver.java:203-208 | one inner-loop step keeps the length and the first entry |
| TwoOptSweep.SweepRow | src/tsp/TSPSolver.java:202-209 | one row of the sweep keeps the length and the first entry |
| TwoOptSweep.SweepFrom | src/tsp/TSPSolver.java:201-210 | the whole sweep keeps the length and the first entry |
| TwoOptSweep.Sweep | src/tsp/TSPSolver.java:201-210 | the nested loops visit the pairs (i, j) in order, reverse exactly when the gain is negative, and keep the entries and the first entry |
| TwoOptSweep.SweepRowPermutes | src/tsp/TSPSolver.java:202-209 | a row of the sweep only rearranges the entries |
| TwoOptSweep.SweepPermutes | src/tsp/TSPSolver.java:201-210 | a sweep only rearranges the entries |
| TwoOptSweep.SweepRowKeepsOptimum | src/tsp/TSPSolver.java:202-209 | a row whose remaining gains are all non-negative changes nothing |
| TwoOptSweep.SweepKeepsOptimum | src/tsp/TSPSolver.java:201-210 | a sweep leaves a 2-opt local optimum unchanged |
| TwoOptSweep.SweepRowNoLonger | src/tsp/TSPSolver.java:202-209 | with symmetric distances a row never lengthens the list read as a cycle |
| TwoOptSweep.SweepRowShortensCycle | src/tsp/TSPSolver.java:202-209 | a row in which some visited pair has a negative gain strictly shortens the cycle |
| TwoOptSweep.SweepShortensCycle | src/tsp/TSPSolver.java:201-210 | a sweep never lengthens the cycle, and strictly shortens it when some visited pair has a negative gain |
| TwoOptSweep.SweepFixedExactlyAtOptimum | src/tsp/TSPSolver.java:201-210 | with symmetric distances a sweep returns its input if and only if the input is a 2-opt local optimum |
| TwoOptSweep.MetricClosingGains | src/tsp/TSPSolver.java:113-117 | on a symmetric metric instance no window ending at the closing entry has a negative gain |
| TwoOptSweep.SweepRowKeepsClosing | src/tsp/TSPSolver.java:202-209 | when no closing gain is negative, a row keeps the closing entry |
| TwoOptSweep.SweepFromKeepsClosing | src/tsp/TSPSolver.java:201-210 | when no closing gain is negative, a sweep keeps the closing entry |
| TwoOptSweep.SweepKeepsClosing | src/tsp/TSPSolver.java:201-210 | on a symmetric metric instance, a list that starts and ends with the same city still ends with it after a sweep |
| NearestNeighbour.NearestUnvisited | src/tsp/TSPSolver.java:139-147 | the scan returns the closest unlisted city below Long.MAX_VALUE, the lowest index among ties, or 0 when there is none |
| NearestNeighbour.Initialisation | src/tsp/TSPSolver.java:131-152 | the list starts with 0, each later entry is the nearest choice from the one before, it is closed by 0, and it has N + 1 entries (2 when N = 0) |
| NearestNeighbour.NearestChoiceIsCity | src/tsp/TSPSolver.java:139-147 | the scan's choice is a city index |
| NearestNeighbour.NearestChoiceUnique | src/tsp/TSPSolver.java:139-147 | the scan's choice is determined by the list so far and the last city |
| NearestNeighbour.NearestNeighbourTourUnique | src/tsp/TSPSolver.java:131-152 | the construction is deterministic: two nearest-neighbour lists of one instance are equal |
| NearestNeighbour.NearestNeighbourTourCities | src/tsp/TSPSolver.java:131-152 | with at least one city every entry is a city index |
| NearestNeighbour.NearestNeighbourTourIsPermutation | src/tsp/TSPSolver.java:131-152 | with distances below Long.MAX_VALUE, the first N entries visit every city exactly once |
| Search.DistinctDrawsAreInterior | src/tsp/TSPSolver.java:246-247 | two different drawn positions lie in 1..N-1, which needs N >= 3 |
| Search.FirstFresh | src/tsp/TSPSolver.java:262-273 | the index of the first accepted pair: all earlier ones are rejected, and 1000 when none is accepted |
| Search.DrawPair | src/tsp/TSPSolver.java:246-273 | the redraw loop stops at the first accepted pair, or after the 1000th redraw whatever it is |
| Search.Swap | src/tsp/TSPSolver.java:280-282 | the two positions exchange their entries and every other position keeps its entry |
| Search.SwapPermutes | src/tsp/TSPSolver.java:280-282 | swapping two positions only rearranges the entries |
| Search.SwapOfDraws | src/tsp/TSPSolver.java:280-282 | a swap of drawn positions keeps the entries, the first entry and the last entry |
| Search.Scrambled | src/tsp/TSPSolver.java:306-313 | the drawn swaps, applied in order, keep the length of the list, its first entry and its last entry |
| Search.ScrambledPreserves | src/tsp/TSPSolver.java:306-313 | the scramble keeps the entries of the list (same multiset) |
| Search.ScrambledPrefix | src/tsp/TSPSolver.java:314-319 | the first N + 1 entries of the scrambled list rearrange those of the unscrambled list and keep its first entry |
| Search.ScrambledPrefixClosed | src/tsp/TSPSolver.java:314-319 | the first N + 1 entries of a scrambled list that starts and ends with the same city also start and end with it |
| Search.Scramble | src/tsp/TSPSolver.java:306-313 | the scramble loop applies the drawn swaps in order |
| Search.PairedUpAppend | src/tsp/TSPSolver.java:278-279 | recording a pair and then its reverse keeps the recorded pairs two by two |
| Search.PairedUpSymmetric | src/tsp/TSPSolver.java:258-259 | the recorded pairs hold a pair if and only if they hold its reverse, so testing one orientation suffices |
| Search.Initial | src/tsp/TSPSolver.java:178-190 | before the first pass the working and best lists are the first N + 1 entries of the nearest-neighbour list, the three distances are Double.MAX_VALUE and no pair is recorded |
| Search.InvInitial | src/tsp/TSPSolver.java:178-190 | the state before the first pass satisfies the search invariant |
| Search.Improved | src/tsp/TSPSolver.java:199-226 | the sweep keeps the length of the working list, and the best list either stays or becomes the swept list |
| Search.Improve | src/tsp/TSPSolver.java:199-226 | after sweep and measure, the best list, best distance and published list change, and the tried pairs are cleared, only on a strictly shorter measure; the best distance never increases |
| Search.InvAfterSwap | src/tsp/TSPSolver.java:277-282 | an accepted swap keeps the working list a rearrangement of the first list and the recorded pairs well formed |
| Search.Restart | src/tsp/TSPSolver.java:304-319 | the restarted list is the first N + 1 entries of the scrambled nearest-neighbour list, a rearrangement of the first list |
| Search.InvAfterRestart | src/tsp/TSPSolver.java:300-319 | a restart keeps the invariant and leaves the best distance and the published list untouched |
| Search.Perturbed | src/tsp/TSPSolver.java:239-320 | the perturbation, a swap at the first accepted pair or a restart, never changes the best distance, the published list or distanceAvant |
| Search.PerturbedSwap | src/tsp/TSPSolver.java:277-282 | when some redraw is accepted, the perturbation swaps that pair in the best list and records it with its reverse |
| Search.PerturbedRestart | src/tsp/TSPSolver.java:300-319 | when the redraws run out, the best and working lists become the scrambled list, distanceApres becomes Double.MAX_VALUE and the recorded pairs are cleared |
| Search.Perturb | src/tsp/TSPSolver.java:239-320 | the working list restarts from the best list; the first accepted pair is swapped and recorded in both orientations; otherwise best and working become the restarted list and the pairs and distanceApres are reset; the best distance never changes |
| Search.Best | src/tsp/TSPSolver.java:218-226 | the best measure is one of the measures and no measure is smaller |
| Search.BestSoFar | src/tsp/TSPSolver.java:188 | the best distance is Double.MAX_VALUE exactly when nothing has been measured |
| Search.BestSoFarAppend | src/tsp/TSPSolver.java:218-226 | a new measure replaces the best distance exactly when it is strictly smaller |
| Search.Next | src/tsp/TSPSolver.java:199-321 | one pass, defined as `Improved` followed by `Perturbed` exactly when distanceAvant <= distanceApres (line 239); its contract: distanceAvant takes the previous distanceApres, and the best distance and published list become the swept list's length and the swept list exactly when that length is strictly below the best distance, and stay unchanged otherwise, with or without the perturbation |
| Search.ClosedArrangementVisitsAll | src/tsp/TSPSolver.java:300-319 | a rearrangement of the nearest-neighbour list that still ends with its first city visits every city exactly once in its first N entries |
| Search.InvTours | src/tsp/TSPSolver.java:178-320 | in every state the working, best and published lists hold city indices when there is a city, and on a symmetric metric instance each ends with the city it starts with; with distances below Long.MAX_VALUE as well, and at least one city, the first N entries of the working and best lists visit every city once |
| Search.TracedMonotone | src/tsp/TSPSolver.java:218-226 | across the passes of a run the best distance never increases |
| Search.PublishedTour | src/tsp/TSPSolver.java:218-226 | once a measure has been taken, the published list holds city indices when there is at least one city; on a symmetric metric instance it ends with its first city, and with distances below Long.MAX_VALUE as well and at least one city its first N entries visit every city exactly once |
| Search.TracedStep | src/tsp/TSPSolver.java:196-323 | one more pass of the outer loop extends the trace of states by the state that pass reaches and the measure it takes |
| Search.Solve | src/tsp/TSPSolver.java:173-323 | the run goes through one state per round, starting from the nearest-neighbour state, each state following from the one before by one pass, each keeping the invariant; the result is the last state's best distance and published list; that distance is the smallest measure of the run and the length of the published list, which rearranges the nearest-neighbour list, holds city indices when there is at least one city, and on symmetric metric instances ends with its first city; with distances below Long.MAX_VALUE and at least one city, its first N entries visit every city once |

## Left out

- The `Instance` class is not part of this model. Its `getDistances` becomes a total function from
  pairs of naturals to integers. With at least one city, every list the solver passes to it holds
  city indices (`NearestNeighbourTourCities`, `InvTours`).
- Length lemmas assume symmetric distances, and the closing-entry lemmas also assume a zero diagonal and
  the triangle inequality. The solver does not check either.
- The `Solution` class is not part of this model. The `published` field of the search state stands for
  the positions written by `setCityPosition`. `m_solution.print` is left out: it is output only.
- The time limit and `System.currentTimeMillis` are replaced by the number of rounds.
- `Math.random` is replaced by the pairs of a round. `ValidDraw` states which positions
  `1 + (int) (Math.random() * (N - 1))` can produce.
- Doubles and longs are unbounded integers: no overflow, no rounding. `Double.MAX_VALUE` is the
  `MaxValue` value of `Length`.
- Lists are values: the model has no aliasing between `ArrayList`s, and `clear` followed by `add`
  becomes a new value.
- The `else` branch of `gain` (i >= j) is left out: `solve` only calls `gain` with i < j.
- The ant-colony code, commented out after `solve`, is not part of this model. So are the
  constructor, getters and setters of `TSPSolver`.
- A sweep may reverse a window that ends at the closing entry (j = N). On a non-metric instance this can
  move the closing city 0 into the list; the model follows the source there.
  `SweepKeepsClosing` proves that this cannot happen on metric instances.
- Search.TriedPairs does not state that a pair is recorded only once. It states that every recorded
  pair holds two different drawable positions, and that pairs come with their reverse.

=== FILE: distances.dfy ===
/** The problem instance: the number of cities and the distance between two cities. */
module Distances {

  /** Long.MAX_VALUE, the initial minimum of the nearest-neighbour scan. */
  const LONG_MAX: int := 0x7FFF_FFFF_FFFF_FFFF

  /**
   * An instance: `n` cities, numbered 0 to n - 1, and the distance oracle getDistances. The solver
   * queries the oracle only on cities (see `Cities`).
   */
  datatype Instance = Instance(n: nat, dist: (nat, nat) -> int)

  /** getDistances(a, b). */
  function Dist(inst: Instance, a: nat, b: nat): int {
    inst.dist(a, b)
  }

  /** The distance from a to b is the distance from b to a. */
  ghost predicate Symmetric(inst: Instance) {
    forall a: nat, b: nat :: Dist(inst, a, b) == Dist(inst, b, a)
  }

  /** A city is at distance zero from itself, and no detour through a third city is shorter. */
  ghost predicate Metric(inst: Instance) {
    (forall a: nat :: Dist(inst, a, a) == 0)
    && forall a: nat, b: nat, c: nat :: Dist(inst, a, b) <= Dist(inst, a, c) + Dist(inst, c, b)
  }

  /** Every distance is strictly below Long.MAX_VALUE. */
  ghost predicate BelowLongMax(inst: Instance) {
    forall a: nat, b: nat :: a < inst.n && b < inst.n ==> Dist(inst, a, b) < LONG_MAX
  }

  /** Every entry of `t` is a city index of an instance with `n` cities. */
  predicate Cities(t: seq<nat>, n: nat) {
    forall k :: 0 <= k < |t| ==> t[k] < n
  }

  lemma CitiesOfRearrangement(a: seq<nat>, b: seq<nat>, n: nat)
    requires Cities(a, n) && multiset(a) == multiset(b)
    ensures Cities(b, n)
  {
    forall k | 0 <= k < |b|
      ensures b[k] < n
    {
      assert b[k] in multiset(a);
    }
  }
}

=== FILE: gain.dfy ===
/** The 2-opt gain: the change of cost of a reversal, from its four boundary edges. */
module TwoOptGain {
  import opened Distances
  import opened Tours
  import opened Reversal

  /**
   * gain(t, i, j) for i < j. `size` is the list length, the number of cities plus one;
   * the neighbours of the window are taken modulo `size`.
   */
  function Gain(inst: Instance, t: seq<nat>, i: nat, j: nat): (r: int)
    requires i < j < |t|
    ensures var before := if i == 0 then |t| - 1 else i - 1;
      var after := if j + 1 < |t| then j + 1 else 0;
      r == Dist(inst, t[i], t[after]) + Dist(inst, t[before], t[j])
           - Dist(inst, t[before], t[i]) - Dist(inst, t[j], t[after])
  {
    var size := |t|;
    ModWrap(i + size - 1, size);
    ModWrap(j + size + 1, size);
    var before := (i + size - 1) % size;
    var after := (j + size + 1) % size;
    Dist(inst, t[i], t[after]) + Dist(inst, t[before], t[j])
      - Dist(inst, t[before], t[i]) - Dist(inst, t[j], t[after])
  }

  /**
   * When the list starts and ends with the same city, a window that reaches the last position has a
   * gain of at least zero on a metric instance: the sweep never reverses it.
   */
  lemma ClosingGainNonNegative(inst: Instance, t: seq<nat>, i: nat)
    requires Symmetric(inst) && Metric(inst)
    requires 1 <= i < |t| - 1 && t[0] == t[|t| - 1]
    ensures Gain(inst, t, i, |t| - 1) >= 0
  {
    var c := t[0];
    assert Dist(inst, t[i - 1], t[i]) <= Dist(inst, t[i - 1], c) + Dist(inst, c, t[i]);
    assert Dist(inst, c, c) == 0;
  }

  /** Reversing an interior window replaces its two boundary edges and keeps every other edge. */
  lemma ReversedInteriorLength(inst: Instance, t: seq<nat>, i: nat, j: nat)
    requires Symmetric(inst)
    requires 1 <= i <= j && j + 1 < |t|
    ensures PathLength(inst, Reversed(t, i, j)) - PathLength(inst, t)
         == Dist(inst, t[i - 1], t[j]) + Dist(inst, t[i], t[j + 1])
            - Dist(inst, t[i - 1], t[i]) - Dist(inst, t[j], t[j + 1])
  {
    var a, s, b := t[..i], t[i..j + 1], t[j + 1..];
    var rs := Rev(s);
    ReversedParts(t, i, j);
    assert t == a + s + b;
    assert rs[0] == t[j] && rs[|rs| - 1] == t[i];
    assert a[|a| - 1] == t[i - 1] && s[0] == t[i] && s[|s| - 1] == t[j] && b[0] == t[j + 1];
    PathLengthRev(inst, s);
    PathLengthSplit(inst, a, s, b);
    PathLengthSplit(inst, a, rs, b);
  }

  /** Reversing a window that ends at the last position replaces only the edge entering it. */
  lemma ReversedTailLength(inst: Instance, t: seq<nat>, i: nat)
    requires Symmetric(inst)
    requires 1 <= i < |t|
    ensures PathLength(inst, Reversed(t, i, |t| - 1)) - PathLength(inst, t)
         == Dist(inst, t[i - 1], t[|t| - 1]) - Dist(inst, t[i - 1], t[i])
  {
    var a, s := t[..i], t[i..];
    var rs := Rev(s);
    ReversedParts(t, i, |t| - 1);
    assert t[|t|..] == [];
    assert Reversed(t, i, |t| - 1) == a + rs;
    assert t == a + s;
    assert rs[0] == t[|t| - 1];
    assert a[|a| - 1] == t[i - 1] && s[0] == t[i];
    PathLengthRev(inst, s);
    PathLengthAppend(inst, a, s);
    PathLengthAppend(inst, a, rs);
  }

  /** For an interior window, the gain is exactly the change of the open path length. */
  lemma GainIsPathDelta(inst: Instance, t: seq<nat>, i: nat, j: nat)
    requires Symmetric(inst)
    requires 1 <= i < j && j + 1 < |t|
    ensures Gain(inst, t, i, j) == PathLength(inst, Reversed(t, i, j)) - PathLength(inst, t)
  {
    ReversedInteriorLength(inst, t, i, j);
  }

  /** For every window the sweep tries, the gain is the change of the length of the list read as a cycle. */
  lemma GainIsCycleDelta(inst: Instance, t: seq<nat>, i: nat, j: nat)
    requires Symmetric(inst)
    requires 1 <= i < j < |t|
    ensures Gain(inst, t, i, j) == CycleLength(inst, Reversed(t, i, j)) - CycleLength(inst, t)
  {
    var r := Reversed(t, i, j);
    ReversedAt(t, i, j);
    assert r[0] == t[0];
    if j + 1 < |t| {
      assert r[|r| - 1] == t[|t| - 1];
      ReversedInteriorLength(inst, t, i, j);
    } else {
      assert r[|r| - 1] == t[i];
      ReversedTailLength(inst, t, i);
    }
  }

  /** Java's `%` agrees with Dafny's on these non-negative operands; a neighbour index wraps at most once. */
  lemma ModWrap(x: int, m: int)
    requires 0 < m && m - 1 <= x <= 2 * m
    ensures x % m == if x == 2 * m then 0 else if x < m then x else x - m
  {
  }
}

=== FILE: nearest.dfy ===
/** The initial tour: nearest-neighbour construction from city 0. */
module NearestNeighbour {
  import opened Distances

  /** A city the scan from `a` can pick: not yet in the list, and strictly closer than Long.MAX_VALUE. */
  ghost predicate Candidate(inst: Instance, visited: seq<nat>, a: nat, c: nat)
    requires a < inst.n
  {
    c < inst.n && c !in visited && Dist(inst, a, c) < LONG_MAX
  }

  /**
   * `v` is what the scan from `a` appends: the closest candidate, the lowest index among equally close
   * ones (the comparison is a strict `<`), and city 0 when there is no candidate at all.
   */
  ghost predicate IsNearestChoice(inst: Instance, visited: seq<nat>, a: nat, v: nat)
  {
    a < inst.n &&
    if exists c: nat :: Candidate(inst, visited, a, c) then
      Candidate(inst, visited, a, v) &&
      forall c: nat :: Candidate(inst, visited, a, c) ==>
        Dist(inst, a, v) <= Dist(inst, a, c) && (c < v ==> Dist(inst, a, v) < Dist(inst, a, c))
    else
      v == 0
  }

  /** The length of the list `initialisation` returns: one entry per city plus the closing 0, and [0, 0] without cities. */
  function TourSize(n: nat): nat {
    if n == 0 then 2 else n + 1
  }

  /** `t` is the list built by `initialisation`: it starts at 0, each entry is the nearest choice from the one before, and 0 closes it. */
  ghost predicate NearestNeighbourTour(inst: Instance, t: seq<nat>)
  {
    |t| == TourSize(inst.n) && t[0] == 0 && t[|t| - 1] == 0 &&
    forall k :: 1 <= k < |t| - 1 ==> IsNearestChoice(inst, t[..k], t[k - 1], t[k])
  }

  ghost predicate Distinct(s: seq<nat>) {
    forall p, q :: 0 <= p < q < |s| ==> s[p] != s[q]
  }

  /** The inner loop of `initialisation`: scan every city, keep the strictly closest one not yet listed. */
  method NearestUnvisited(inst: Instance, listeVilles: seq<nat>, a: nat) returns (ville: nat)
    requires a < inst.n
    ensures IsNearestChoice(inst, listeVilles, a, ville)
  {
    var distanceMin := LONG_MAX;
    ville := 0;
    var i := 0;
    while i < inst.n
      invariant 0 <= i <= inst.n
      invariant distanceMin == LONG_MAX ==>
        ville == 0 && forall c: nat :: c < i ==> !Candidate(inst, listeVilles, a, c)
      invariant distanceMin != LONG_MAX ==>
        ville < i && Candidate(inst, listeVilles, a, ville) && distanceMin == Dist(inst, a, ville)
      invariant forall c: nat :: c < i && Candidate(inst, listeVilles, a, c) ==>
        distanceMin <= Dist(inst, a, c) && (c < ville ==> distanceMin < Dist(inst, a, c))
      invariant distanceMin <= LONG_MAX
    {
      if i !in listeVilles && Dist(inst, a, i) < distanceMin {
        distanceMin := Dist(inst, a, i);
        ville := i;
      }
      i := i + 1;
    }
  }

  /** initialisation: start at city 0, append the nearest choice from the last city until every position is filled, close with 0. */
  method Initialisation(inst: Instance) returns (listeVilles: seq<nat>)
    ensures NearestNeighbourTour(inst, listeVilles)
  {
    listeVilles := [0];
    var k := 1;
    while k < inst.n
      invariant 1 <= k <= if inst.n == 0 then 1 else inst.n
      invariant |listeVilles| == k && listeVilles[0] == 0
      invariant k < inst.n ==> Cities(listeVilles, inst.n)
      invariant forall m :: 1 <= m < k ==> IsNearestChoice(inst, listeVilles[..m], listeVilles[m - 1], listeVilles[m])
    {
      var a := listeVilles[k - 1];
      var ville := NearestUnvisited(inst, listeVilles, a);
      NearestChoiceIsCity(inst, listeVilles, a, ville);
      var next := listeVilles + [ville];
      assert next[..k] == listeVilles;
      assert forall m :: 1 <= m < k ==> next[..m] == listeVilles[..m];
      listeVilles := next;
      k := k + 1;
    }
    assert k == if inst.n == 0 then 1 else inst.n;
    listeVilles := listeVilles + [0];
    assert forall m :: 1 <= m < |listeVilles| - 1 ==> listeVilles[..m] == listeVilles[..|listeVilles| - 1][..m];
  }

  lemma NearestChoiceIsCity(inst: Instance, visited: seq<nat>, a: nat, v: nat)
    requires IsNearestChoice(inst, visited, a, v)
    ensures v < inst.n
  {
  }

  /** The scan's choice is determined by the list so far and the last city. */
  lemma NearestChoiceUnique(inst: Instance, visited: seq<nat>, a: nat, v: nat, w: nat)
    requires IsNearestChoice(inst, visited, a, v) && IsNearestChoice(inst, visited, a, w)
    ensures v == w
  {
    if exists c: nat :: Candidate(inst, visited, a, c) {
      assert Candidate(inst, visited, a, v) && Candidate(inst, visited, a, w);
    }
  }

  /** `initialisation` is deterministic: there is exactly one nearest-neighbour tour of an instance. */
  lemma NearestNeighbourTourUnique(inst: Instance, t: seq<nat>, u: seq<nat>)
    requires NearestNeighbourTour(inst, t) && NearestNeighbourTour(inst, u)
    ensures t == u
  {
    var k := 1;
    while k < |t| - 1
      invariant 1 <= k <= |t| - 1
      invariant t[..k] == u[..k]
    {
      assert t[k - 1] == u[k - 1];
      NearestChoiceUnique(inst, t[..k], t[k - 1], t[k], u[k]);
      assert t[..k + 1] == t[..k] + [t[k]] && u[..k + 1] == u[..k] + [u[k]];
      k := k + 1;
    }
    assert t == t[..k] + [t[k]] && u == u[..k] + [u[k]];
  }

  /** For an instance with cities, the tour holds only city indices. */
  lemma NearestNeighbourTourCities(inst: Instance, t: seq<nat>)
    requires inst.n >= 1 && NearestNeighbourTour(inst, t)
    ensures Cities(t, inst.n)
  {
    forall k | 1 <= k < |t| - 1
      ensures t[k] < inst.n
    {
      NearestChoiceIsCity(inst, t[..k], t[k - 1], t[k]);
    }
  }

  /** Fewer than `n` entries cannot hold every city below `n`. */
  lemma {:induction false} MissingCity(s: seq<nat>, n: nat)
    requires |s| < n
    ensures exists c: nat :: c < n && c !in s
  {
    if n - 1 in s {
      var k :| 0 <= k < |s| && s[k] == n - 1;
      var rest := s[..k] + s[k + 1..];
      assert s == s[..k] + [s[k]] + s[k + 1..];
      MissingCity(rest, n - 1);
      var c: nat :| c < n - 1 && c !in rest;
      assert c !in s;
    }
  }

  /** `s` without its entry at position `k`. */
  lemma {:induction false} RemoveEntry(s: seq<nat>, k: nat) returns (rest: seq<nat>)
    requires k < |s|
    ensures |rest| == |s| - 1
    ensures forall q :: 0 <= q < |rest| ==> rest[q] == s[if q < k then q else q + 1]
    ensures forall c :: c in s && c != s[k] ==> c in rest
  {
    rest := s[..k] + s[k + 1..];
    forall c | c in s && c != s[k]
      ensures c in rest
    {
      var q :| 0 <= q < |s| && s[q] == c;
      assert rest[if q < k then q else q - 1] == c;
    }
  }

  /** Distinct city indices below `n` number at most `n`, and exactly `n` of them are all the cities. */
  lemma {:induction false} DistinctCitiesCover(s: seq<nat>, n: nat)
    requires Distinct(s) && Cities(s, n)
    ensures |s| <= n
    ensures |s| == n ==> forall c: nat :: c < n ==> c in s
    decreases n
  {
    if n == 0 {
      assert s == [];
    } else if n - 1 in s {
      var k :| 0 <= k < |s| && s[k] == n - 1;
      var rest := RemoveEntry(s, k);
      assert Distinct(rest) by {
        forall p, q | 0 <= p < q < |rest|
          ensures rest[p] != rest[q]
        {
          assert rest[p] == s[if p < k then p else p + 1];
          assert rest[q] == s[if q < k then q else q + 1];
        }
      }
      assert Cities(rest, n - 1) by {
        forall q | 0 <= q < |rest|
          ensures rest[q] < n - 1
        {
          assert rest[q] == s[if q < k then q else q + 1];
        }
      }
      DistinctCitiesCover(rest, n - 1);
      forall c: nat | c < n - 1 && |s| == n
        ensures c in s
      {
        assert c in rest;
        assert c in s;
      }
    } else {
      assert Cities(s, n - 1) by {
        forall q | 0 <= q < |s|
          ensures s[q] < n - 1
        {
          assert s[q] != n - 1;
        }
      }
      DistinctCitiesCover(s, n - 1);
    }
  }

  /**
   * With every distance below Long.MAX_VALUE and at least one city, the first `n` entries of the
   * nearest-neighbour tour visit every city exactly once.
   */
  lemma NearestNeighbourTourIsPermutation(inst: Instance, t: seq<nat>)
    requires inst.n >= 1 && BelowLongMax(inst) && NearestNeighbourTour(inst, t)
    ensures Distinct(t[..inst.n])
    ensures forall c: nat :: c < inst.n ==> c in t[..inst.n]
  {
    var n := inst.n;
    NearestNeighbourTourCities(inst, t);
    forall k | 1 <= k < n
      ensures t[k] !in t[..k]
    {
      MissingCity(t[..k], n);
      var c: nat :| c < n && c !in t[..k];
      assert Candidate(inst, t[..k], t[k - 1], c);
    }
    var s := t[..n];
    assert Distinct(s) by {
      forall p, q | 0 <= p < q < |s|
        ensures s[p] != s[q]
      {
        assert t[p] in t[..q];
      }
    }
    DistinctCitiesCover(s, n);
  }
}

=== FILE: reversal.dfy ===
/** The 2-opt move: reversing the entries between two positions of a tour. */
module Reversal {
  import opened Distances
  import opened Tours

  /** The entries of `s` in reverse order. */
  function Rev(s: seq<nat>): (r: seq<nat>)
    ensures |r| == |s|
    ensures forall k :: 0 <= k < |s| ==> r[k] == s[|s| - 1 - k]
  {
    if s == [] then [] else Rev(s[1..]) + [s[0]]
  }

  lemma {:induction false} RevPermutes(s: seq<nat>)
    ensures multiset(Rev(s)) == multiset(s)
  {
    if s != [] {
      RevPermutes(s[1..]);
      assert s == [s[0]] + s[1..];
    }
  }

  /**
   * The list `p` with positions `i..j` reversed, defined by swapping the two ends of the window
   * and then reversing what lies between them.
   */
  function Reversed(p: seq<nat>, i: nat, j: nat): (r: seq<nat>)
    requires i <= j < |p|
    ensures |r| == |p|
    decreases j - i
  {
    var swapped := p[i := p[j]][j := p[i]];
    if j <= i + 1 then swapped else Reversed(swapped, i + 1, j - 1)
  }

  /** Position by position: outside the window nothing moves, inside it position k holds p[i + j - k]. */
  lemma {:induction false} ReversedAt(p: seq<nat>, i: nat, j: nat)
    requires i <= j < |p|
    ensures forall k :: 0 <= k < i ==> Reversed(p, i, j)[k] == p[k]
    ensures forall k :: i <= k <= j ==> Reversed(p, i, j)[k] == p[i + j - k]
    ensures forall k :: j < k < |p| ==> Reversed(p, i, j)[k] == p[k]
    decreases j - i
  {
    if j > i + 1 {
      ReversedAt(p[i := p[j]][j := p[i]], i + 1, j - 1);
    }
  }

  lemma MiddlePermuted(prefix: seq<nat>, window: seq<nat>, other: seq<nat>, suffix: seq<nat>)
    requires multiset(window) == multiset(other)
    ensures multiset(prefix + window + suffix) == multiset(prefix + other + suffix)
  {
  }

  lemma SplitAround(p: seq<nat>, i: nat, j: nat)
    requires i <= j < |p|
    ensures p == p[..i] + p[i..j + 1] + p[j + 1..]
  {
  }

  /** A reversal only rearranges the entries. */
  lemma ReversedPermutes(p: seq<nat>, i: nat, j: nat)
    requires i <= j < |p|
    ensures multiset(Reversed(p, i, j)) == multiset(p)
  {
    ReversedParts(p, i, j);
    RevPermutes(p[i..j + 1]);
    MiddlePermuted(p[..i], p[i..j + 1], Rev(p[i..j + 1]), p[j + 1..]);
    SplitAround(p, i, j);
  }

  /** RenverseParcours: builds the reversed window, then the prefix, the window and the suffix, in fresh lists. */
  method RenverseParcours(i: nat, j: nat, parcours: seq<nat>) returns (r: seq<nat>)
    requires i <= j < |parcours|
    ensures r == Reversed(parcours, i, j)
  {
    var renverse: seq<nat> := [];
    var k := 0;
    while k < j - i + 1
      invariant 0 <= k <= j - i + 1
      invariant |renverse| == k
      invariant forall m :: 0 <= m < k ==> renverse[m] == parcours[j - m]
    {
      renverse := renverse + [parcours[j - k]];
      k := k + 1;
    }
    var tampon: seq<nat> := [];
    k := 0;
    while k < i
      invariant 0 <= k <= i
      invariant tampon == parcours[..k]
    {
      tampon := tampon + [parcours[k]];
      k := k + 1;
    }
    tampon := tampon + renverse;
    k := j + 1;
    while k < |parcours|
      invariant j + 1 <= k <= |parcours|
      invariant tampon == parcours[..i] + renverse + parcours[j + 1..k]
    {
      tampon := tampon + [parcours[k]];
      k := k + 1;
    }
    assert parcours[j + 1..|parcours|] == parcours[j + 1..];
    ReversedWindow(parcours, i, j, renverse);
    r := tampon;
  }

  /** A list holding p[j], p[j-1], ..., p[i] is the reversed window of `Reversed`. */
  lemma ReversedWindow(p: seq<nat>, i: nat, j: nat, w: seq<nat>)
    requires i <= j < |p|
    requires |w| == j - i + 1 && forall m :: 0 <= m < |w| ==> w[m] == p[j - m]
    ensures p[..i] + w + p[j + 1..] == Reversed(p, i, j)
  {
    var lhs, r := p[..i] + w + p[j + 1..], Reversed(p, i, j);
    ReversedAt(p, i, j);
    forall k | 0 <= k < |p|
      ensures lhs[k] == r[k]
    {
      if i <= k <= j {
        assert lhs[k] == w[k - i];
      } else if j < k {
        assert lhs[k] == p[k];
      }
    }
  }

  lemma ReversedParts(p: seq<nat>, i: nat, j: nat)
    requires i <= j < |p|
    ensures Reversed(p, i, j) == p[..i] + Rev(p[i..j + 1]) + p[j + 1..]
  {
    ReversedWindow(p, i, j, Rev(p[i..j + 1]));
  }

  /** Reversing the same window twice gives the list back. */
  lemma ReversedInvolution(p: seq<nat>, i: nat, j: nat)
    requires i <= j < |p|
    ensures Reversed(Reversed(p, i, j), i, j) == p
  {
    var rr := Reversed(Reversed(p, i, j), i, j);
    ReversedAt(p, i, j);
    ReversedAt(Reversed(p, i, j), i, j);
    assert forall k :: 0 <= k < |p| ==> rr[k] == p[k];
  }

  /** The example of the documentation comment: on [2,3,1,4], reversing positions 1..3 gives [2,4,1,3]. */
  lemma ReversedExample(p: seq<nat>)
    requires p == [2, 3, 1, 4]
    ensures Reversed(p, 1, 3) == [2, 4, 1, 3]
  {
    var r := Reversed(p, 1, 3);
    ReversedAt(p, 1, 3);
    assert r[0] == p[0] && r[1] == p[3] && r[2] == p[2] && r[3] == p[1];
  }

  /** With symmetric distances a path and its reversal have the same length. */
  lemma {:induction false} PathLengthRev(inst: Instance, s: seq<nat>)
    requires Symmetric(inst)
    ensures PathLength(inst, Rev(s)) == PathLength(inst, s)
  {
    var r := Rev(s);
    if |s| > 1 {
      var head, tail := [s[0]], s[1..];
      var rt := Rev(tail);
      assert r == rt + head;
      assert s == head + tail;
      assert rt[|rt| - 1] == tail[0];
      PathLengthRev(inst, tail);
      PathLengthAppend(inst, rt, head);
      PathLengthAppend(inst, head, tail);
    }
  }
}

=== FILE: search.dfy ===
/**
 * The search loop of `solve`: a sweep, the measure of the result, the update of the best tour and,
 * when a sweep brings no improvement, a perturbation of the best tour or a restart.
 */
module Search {
  import opened Distances
  import opened Tours
  import opened TwoOptSweep
  import opened NearestNeighbour

  /** A `double` distance of `solve`: Double.MAX_VALUE, the "nothing measured" sentinel, or a measured sum. */
  datatype Length = MaxValue | Finite(value: int)

  /** a < b on these values. */
  predicate Below(a: Length, b: Length) {
    match (a, b)
    case (Finite(x), Finite(y)) => x < y
    case (Finite(_), MaxValue) => true
    case (MaxValue, _) => false
  }

  /** a <= b on these values. */
  predicate AtMost(a: Length, b: Length) {
    !Below(b, a)
  }

  /**
   * The positions `1 + (int) (Math.random() * (N - 1))` can produce for N cities: 1 to N - 1 when N >= 2,
   * and only 1 otherwise (the cast truncates toward zero).
   */
  predicate ValidDraw(n: nat, p: nat) {
    1 <= p && (p == 1 || p < n)
  }

  /** Two different drawn positions both lie strictly inside the list of N + 1 entries. */
  lemma DistinctDrawsAreInterior(n: nat, p: nat, q: nat)
    requires ValidDraw(n, p) && ValidDraw(n, q) && p != q
    ensures 3 <= n && 1 <= p < n && 1 <= q < n
  {
  }

  predicate ValidPairs(n: nat, pairs: seq<(nat, nat)>) {
    forall k :: 0 <= k < |pairs| ==> ValidDraw(n, pairs[k].0) && ValidDraw(n, pairs[k].1)
  }

  /**
   * The random draws one pass of the outer loop may use: the first pair and the 1000 redraws of a
   * perturbation, then the 100000 swaps that scramble a restarted tour.
   */
  datatype Round = Round(pairs: seq<(nat, nat)>, scramble: seq<(nat, nat)>)

  predicate ValidRound(n: nat, round: Round) {
    |round.pairs| == 1001 && |round.scramble| == 100000 && ValidPairs(n, round.pairs) && ValidPairs(n, round.scramble)
  }

  /** A pair the redraw loop accepts: two different positions, not recorded yet. */
  predicate Fresh(pair: (nat, nat), tried: seq<(nat, nat)>) {
    pair.0 != pair.1 && pair !in tried
  }

  /** The index of the first accepted pair among pairs[k..1000), or 1000 when none of them is accepted. */
  function FirstFresh(pairs: seq<(nat, nat)>, tried: seq<(nat, nat)>, k: nat): (r: nat)
    requires k <= 1000 < |pairs|
    ensures k <= r <= 1000
    ensures r < 1000 ==> Fresh(pairs[r], tried)
    ensures forall m :: k <= m < r ==> !Fresh(pairs[m], tried)
    decreases 1000 - k
  {
    if k == 1000 || Fresh(pairs[k], tried) then k else FirstFresh(pairs, tried, k + 1)
  }

  /**
   * The first draw and the redraw loop: draw again while the pair is not accepted and fewer than
   * 1000 redraws were made. The loop also stops on the 1000th redraw when that one is accepted.
   */
  method DrawPair(tried: seq<(nat, nat)>, pairs: seq<(nat, nat)>)
    returns (indexVilleAlea1: nat, indexVilleAlea2: nat, nombreTirageAuSort: nat)
    requires |pairs| == 1001
    ensures nombreTirageAuSort == FirstFresh(pairs, tried, 0)
    ensures (indexVilleAlea1, indexVilleAlea2) == pairs[nombreTirageAuSort]
  {
    indexVilleAlea1, indexVilleAlea2 := pairs[0].0, pairs[0].1;
    nombreTirageAuSort := 0;
    while (indexVilleAlea1 == indexVilleAlea2 || (indexVilleAlea1, indexVilleAlea2) in tried) && nombreTirageAuSort < 1000
      invariant nombreTirageAuSort <= 1000
      invariant (indexVilleAlea1, indexVilleAlea2) == pairs[nombreTirageAuSort]
      invariant FirstFresh(pairs, tried, nombreTirageAuSort) == FirstFresh(pairs, tried, 0)
    {
      indexVilleAlea1, indexVilleAlea2 := pairs[nombreTirageAuSort + 1].0, pairs[nombreTirageAuSort + 1].1;
      nombreTirageAuSort := nombreTirageAuSort + 1;
    }
  }

  /** The list with the entries at positions p and q exchanged. */
  function Swap(t: seq<nat>, p: nat, q: nat): (r: seq<nat>)
    requires p < |t| && q < |t|
    ensures |r| == |t| && r[p] == t[q] && r[q] == t[p]
    ensures forall k :: 0 <= k < |t| && k != p && k != q ==> r[k] == t[k]
  {
    t[p := t[q]][q := t[p]]
  }

  lemma SwapPermutes(t: seq<nat>, p: nat, q: nat)
    requires p < q < |t|
    ensures multiset(Swap(t, p, q)) == multiset(t)
  {
    assert t == t[..p] + [t[p]] + t[p + 1..q] + [t[q]] + t[q + 1..];
    assert Swap(t, p, q) == t[..p] + [t[q]] + t[p + 1..q] + [t[p]] + t[q + 1..];
  }

  /** A swap of two drawn positions keeps the entries, the first and the last entry of a list of N + 1 or more. */
  lemma SwapOfDraws(n: nat, t: seq<nat>, p: nat, q: nat)
    requires |t| >= n + 1 && |t| >= 2 && ValidDraw(n, p) && ValidDraw(n, q)
    ensures multiset(Swap(t, p, q)) == multiset(t)
    ensures Swap(t, p, q)[0] == t[0] && Swap(t, p, q)[|t| - 1] == t[|t| - 1]
  {
    if p == q {
      assert Swap(t, p, q) == t;
    } else {
      DistinctDrawsAreInterior(n, p, q);
      if p < q { SwapPermutes(t, p, q); } else {
        assert Swap(t, p, q) == Swap(t, q, p);
        SwapPermutes(t, q, p);
      }
    }
  }

  /** The list after the given swaps, applied in order. */
  function Scrambled(n: nat, t: seq<nat>, swaps: seq<(nat, nat)>): (r: seq<nat>)
    requires |t| == TourSize(n) && ValidPairs(n, swaps)
    ensures |r| == |t| && r[0] == t[0] && r[|r| - 1] == t[|t| - 1]
    decreases |swaps|
  {
    if swaps == [] then t
    else
      var last := swaps[|swaps| - 1];
      Swap(Scrambled(n, t, swaps[..|swaps| - 1]), last.0, last.1)
  }

  /** A scramble keeps the entries of the list. */
  lemma {:induction false} ScrambledPreserves(n: nat, t: seq<nat>, swaps: seq<(nat, nat)>)
    requires |t| == TourSize(n) && ValidPairs(n, swaps)
    ensures multiset(Scrambled(n, t, swaps)) == multiset(t)
    decreases |swaps|
  {
    if swaps != [] {
      var prefix := swaps[..|swaps| - 1];
      ScrambledPreserves(n, t, prefix);
      SwapOfDraws(n, Scrambled(n, t, prefix), swaps[|swaps| - 1].0, swaps[|swaps| - 1].1);
    }
  }

  /** The list a restart starts from: the first N + 1 entries of the list `t` scrambled by `swaps`. */
  function RestartList(n: nat, t: seq<nat>, swaps: seq<(nat, nat)>): seq<nat>
    requires |t| == TourSize(n) && ValidPairs(n, swaps)
  {
    Scrambled(n, t, swaps)[..n + 1]
  }

  /** The first N + 1 entries of a scrambled nearest-neighbour list rearrange those of the list itself. */
  lemma ScrambledPrefix(n: nat, t: seq<nat>, swaps: seq<(nat, nat)>)
    requires |t| == TourSize(n) && ValidPairs(n, swaps)
    ensures Arrangement(Scrambled(n, t, swaps)[..n + 1], t[..n + 1])
  {
    var r := Scrambled(n, t, swaps);
    ScrambledPreserves(n, t, swaps);
    if n == 0 {
      assert r[..1] == [r[0]] && t[..1] == [t[0]];
    } else {
      assert r[..n + 1] == r && t[..n + 1] == t;
    }
  }

  /** The first N + 1 entries of a scrambled list that starts and ends with the same city do so too. */
  lemma ScrambledPrefixClosed(n: nat, t: seq<nat>, swaps: seq<(nat, nat)>)
    requires |t| == TourSize(n) && ValidPairs(n, swaps) && Closed(t)
    ensures Closed(Scrambled(n, t, swaps)[..n + 1])
  {
    var r := Scrambled(n, t, swaps);
    if n > 0 {
      assert r[..n + 1] == r;
    }
  }

  /** The scramble loop of a restart: one swap per draw. */
  method Scramble(n: nat, trajetInitial: seq<nat>, swaps: seq<(nat, nat)>) returns (r: seq<nat>)
    requires |trajetInitial| == TourSize(n) && ValidPairs(n, swaps)
    ensures r == Scrambled(n, trajetInitial, swaps)
  {
    r := trajetInitial;
    var nombreTirageAuSort := 0;
    while nombreTirageAuSort < |swaps|
      invariant nombreTirageAuSort <= |swaps|
      invariant r == Scrambled(n, trajetInitial, swaps[..nombreTirageAuSort])
    {
      var indexVilleAlea1, indexVilleAlea2 := swaps[nombreTirageAuSort].0, swaps[nombreTirageAuSort].1;
      assert swaps[..nombreTirageAuSort + 1][..nombreTirageAuSort] == swaps[..nombreTirageAuSort];
      var villeAlea1 := r[indexVilleAlea1];
      r := r[indexVilleAlea1 := r[indexVilleAlea2]][indexVilleAlea2 := villeAlea1];
      nombreTirageAuSort := nombreTirageAuSort + 1;
    }
    assert swaps[..|swaps|] == swaps;
  }

  /**
   * The variables of `solve` that outlive one pass of its loop, plus `published`: the list last handed
   * to the solution through setCityPosition.
   */
  datatype SearchState = SearchState(
    working: seq<nat>,
    best: seq<nat>,
    bestDistance: Length,
    before: Length,
    after: Length,
    tried: seq<(nat, nat)>,
    published: seq<nat>)

  /** The recorded pairs come two by two: a pair, then the same pair in the other orientation. */
  predicate PairedUp(tried: seq<(nat, nat)>)
    decreases |tried|
  {
    if |tried| < 2 then tried == [] else tried[1] == (tried[0].1, tried[0].0) && PairedUp(tried[2..])
  }

  /** Recording a pair with its reverse keeps the recorded pairs two by two. */
  lemma {:induction false} PairedUpAppend(tried: seq<(nat, nat)>, p: nat, q: nat)
    requires PairedUp(tried)
    ensures PairedUp(tried + [(p, q), (q, p)])
    decreases |tried|
  {
    var added := tried + [(p, q), (q, p)];
    if tried != [] {
      assert added[2..] == tried[2..] + [(p, q), (q, p)];
      PairedUpAppend(tried[2..], p, q);
    }
  }

  /** Recorded pairs that come two by two hold a pair exactly when they hold its reverse. */
  lemma {:induction false} PairedUpSymmetric(tried: seq<(nat, nat)>, p: nat, q: nat)
    requires PairedUp(tried)
    ensures (p, q) in tried <==> (q, p) in tried
    decreases |tried|
  {
    if tried != [] {
      assert tried == [tried[0], tried[1]] + tried[2..];
      PairedUpSymmetric(tried[2..], p, q);
    }
  }

  /** The recorded pairs: each holds two different positions the draw can produce, and they come two by two. */
  predicate TriedPairs(n: nat, tried: seq<(nat, nat)>) {
    (forall k :: 0 <= k < |tried| ==> tried[k].0 != tried[k].1 && ValidDraw(n, tried[k].0) && ValidDraw(n, tried[k].1))
    && PairedUp(tried)
  }

  /** `t` rearranges the entries of `start` and keeps its first entry. */
  predicate Arrangement(t: seq<nat>, start: seq<nat>) {
    |t| == |start| && |t| >= 1 && t[0] == start[0] && multiset(t) == multiset(start)
  }

  /** The last entry of `t` is its first: the list closes the tour. */
  predicate Closed(t: seq<nat>) {
    |t| >= 1 && t[|t| - 1] == t[0]
  }

  /**
   * What holds of every state, with `start` the first N + 1 entries of the nearest-neighbour list: the
   * working and best lists rearrange it, the recorded pairs are well formed, and once a best distance
   * exists it is the length of the published list. When no sweep can reverse a window through the
   * closing entry (as on metric instances), every list also ends with the city it starts with.
   */
  ghost predicate Inv(inst: Instance, s: SearchState, start: seq<nat>) {
    |start| == inst.n + 1
    && Arrangement(s.working, start) && Arrangement(s.best, start)
    && TriedPairs(inst.n, s.tried)
    && (s.bestDistance == MaxValue
        || (Arrangement(s.published, start) && s.bestDistance == Finite(PathLength(inst, s.published))))
    && (ClosingGainsNonNegative(inst) ==>
          Closed(s.working) && Closed(s.best) && (s.bestDistance == MaxValue || Closed(s.published)))
  }

  /**
   * One sweep, the measure of its result, and the update of the best tour, which happens only on a
   * strictly shorter measure and then also empties the recorded pairs.
   */
  method Improve(inst: Instance, s: SearchState, ghost start: seq<nat>) returns (r: SearchState)
    requires Inv(inst, s, start)
    ensures Inv(inst, r, start)
    ensures r.before == s.after
    ensures r.working == SweepFrom(inst, s.working, 1)
    ensures r.after == Finite(PathLength(inst, r.working))
    ensures Below(r.after, s.bestDistance) ==>
      r.best == r.working && r.published == r.working && r.bestDistance == r.after && r.tried == []
    ensures !Below(r.after, s.bestDistance) ==>
      r.best == s.best && r.published == s.published && r.bestDistance == s.bestDistance && r.tried == s.tried
    ensures AtMost(r.bestDistance, s.bestDistance) && AtMost(r.bestDistance, r.after)
    ensures r == Improved(inst, s)
  {
    var distanceAvant := s.after;
    var ameliorationTrajet := Sweep(inst, s.working);
    var distanceApres := MeasurePath(inst, ameliorationTrajet);
    if ClosingGainsNonNegative(inst) {
      SweepFromKeepsClosing(inst, s.working, 1);
    }
    if Below(Finite(distanceApres), s.bestDistance) {
      r := SearchState(ameliorationTrajet, ameliorationTrajet, Finite(distanceApres), distanceAvant,
                       Finite(distanceApres), [], ameliorationTrajet);
    } else {
      r := s.(working := ameliorationTrajet, before := distanceAvant, after := Finite(distanceApres));
    }
  }

  /** The state after an accepted pair is recorded and swapped in the best list. */
  lemma InvAfterSwap(inst: Instance, s: SearchState, start: seq<nat>, p: nat, q: nat)
    requires Inv(inst, s, start) && ValidDraw(inst.n, p) && ValidDraw(inst.n, q) && Fresh((p, q), s.tried)
    ensures p < |s.best| && q < |s.best|
    ensures Inv(inst, s.(working := Swap(s.best, p, q), tried := s.tried + [(p, q), (q, p)]), start)
  {
    DistinctDrawsAreInterior(inst.n, p, q);
    PairedUpAppend(s.tried, p, q);
    SwapOfDraws(inst.n, s.best, p, q);
  }

  /**
   * The restart: a new nearest-neighbour list, scrambled, cut to its first N + 1 entries. Since the
   * construction is deterministic, the result rearranges the first N + 1 entries of the initial list.
   */
  method Restart(inst: Instance, swaps: seq<(nat, nat)>, ghost nn: seq<nat>) returns (trajet: seq<nat>)
    requires NearestNeighbourTour(inst, nn) && ValidPairs(inst.n, swaps)
    ensures trajet == RestartList(inst.n, nn, swaps)
    ensures Arrangement(trajet, nn[..inst.n + 1]) && Closed(trajet)
  {
    var trajetInitial := Initialisation(inst);
    NearestNeighbourTourUnique(inst, trajetInitial, nn);
    trajetInitial := Scramble(inst.n, trajetInitial, swaps);
    ScrambledPrefix(inst.n, nn, swaps);
    ScrambledPrefixClosed(inst.n, nn, swaps);
    trajet := trajetInitial[..inst.n + 1];
  }

  /** The state after a restart from a scrambled nearest-neighbour list. */
  lemma InvAfterRestart(inst: Instance, s: SearchState, start: seq<nat>, restarted: seq<nat>)
    requires Inv(inst, s, start) && Arrangement(restarted, start) && Closed(restarted)
    ensures Inv(inst, s.(working := restarted, best := restarted, after := MaxValue, tried := []), start)
  {
  }

  /** The state after a perturbation drawing from `round`, with `nn` the nearest-neighbour list. */
  function Perturbed(inst: Instance, s: SearchState, round: Round, nn: seq<nat>): (r: SearchState)
    requires ValidRound(inst.n, round) && |s.best| == inst.n + 1 && |nn| == TourSize(inst.n)
    ensures r.bestDistance == s.bestDistance && r.published == s.published && r.before == s.before
  {
    var k := FirstFresh(round.pairs, s.tried, 0);
    if k < 1000 then
      var p, q := round.pairs[k].0, round.pairs[k].1;
      DistinctDrawsAreInterior(inst.n, p, q);
      s.(working := Swap(s.best, p, q), tried := s.tried + [(p, q), (q, p)])
    else
      var t := RestartList(inst.n, nn, round.scramble);
      s.(working := t, best := t, after := MaxValue, tried := [])
  }

  /** The perturbation when the redraws find an accepted pair. */
  lemma PerturbedSwap(inst: Instance, s: SearchState, round: Round, nn: seq<nat>)
    requires ValidRound(inst.n, round) && |s.best| == inst.n + 1 && |nn| == TourSize(inst.n)
    requires FirstFresh(round.pairs, s.tried, 0) < 1000
    ensures var pair := round.pairs[FirstFresh(round.pairs, s.tried, 0)];
      pair.0 < |s.best| && pair.1 < |s.best|
      && Perturbed(inst, s, round, nn)
         == s.(working := Swap(s.best, pair.0, pair.1), tried := s.tried + [pair, (pair.1, pair.0)])
  {
    var pair := round.pairs[FirstFresh(round.pairs, s.tried, 0)];
    DistinctDrawsAreInterior(inst.n, pair.0, pair.1);
  }

  /** The perturbation when the redraws run out. */
  lemma PerturbedRestart(inst: Instance, s: SearchState, round: Round, nn: seq<nat>)
    requires ValidRound(inst.n, round) && |s.best| == inst.n + 1 && |nn| == TourSize(inst.n)
    requires FirstFresh(round.pairs, s.tried, 0) == 1000
    ensures var t := RestartList(inst.n, nn, round.scramble);
      Perturbed(inst, s, round, nn) == s.(working := t, best := t, after := MaxValue, tried := [])
  {
    assert !(FirstFresh(round.pairs, s.tried, 0) < 1000);
  }

  /**
   * The perturbation that follows a sweep without improvement. The working list restarts from the best
   * list; an accepted pair is recorded with its reverse and swapped. When the redraws run out, the search
   * restarts from a scrambled nearest-neighbour list, which replaces the best list but not the best
   * distance.
   */
  method Perturb(inst: Instance, s: SearchState, round: Round, ghost nn: seq<nat>) returns (r: SearchState)
    requires NearestNeighbourTour(inst, nn) && Inv(inst, s, nn[..inst.n + 1]) && ValidRound(inst.n, round)
    ensures Inv(inst, r, nn[..inst.n + 1])
    ensures r.bestDistance == s.bestDistance && r.published == s.published && r.before == s.before
    ensures var k := FirstFresh(round.pairs, s.tried, 0);
      if k < 1000 then
        r.working == Swap(s.best, round.pairs[k].0, round.pairs[k].1) && r.best == s.best && r.after == s.after
        && r.tried == s.tried + [round.pairs[k], (round.pairs[k].1, round.pairs[k].0)]
      else
        r.working == r.best == RestartList(inst.n, nn, round.scramble)
        && r.after == MaxValue && r.tried == []
    ensures r == Perturbed(inst, s, round, nn)
  {
    var ameliorationTrajet := s.best;
    var indexVilleAlea1, indexVilleAlea2, nombreTirageAuSort := DrawPair(s.tried, round.pairs);
    if nombreTirageAuSort < 1000 {
      InvAfterSwap(inst, s, nn[..inst.n + 1], indexVilleAlea1, indexVilleAlea2);
      var permutationsEffectuees := s.tried + [(indexVilleAlea1, indexVilleAlea2), (indexVilleAlea2, indexVilleAlea1)];
      var villeAlea1 := ameliorationTrajet[indexVilleAlea1];
      ameliorationTrajet := ameliorationTrajet[indexVilleAlea1 := ameliorationTrajet[indexVilleAlea2]][indexVilleAlea2 := villeAlea1];
      r := s.(working := ameliorationTrajet, tried := permutationsEffectuees);
      PerturbedSwap(inst, s, round, nn);
    } else {
      var trajet := Restart(inst, round.scramble, nn);
      InvAfterRestart(inst, s, nn[..inst.n + 1], trajet);
      r := s.(working := trajet, best := trajet, after := MaxValue, tried := []);
      PerturbedRestart(inst, s, round, nn);
    }
  }

  /** The best of the measures so far: a later measure replaces it only when strictly smaller. */
  function Best(measures: seq<int>): (m: int)
    requires |measures| >= 1
    ensures m in measures && forall x :: x in measures ==> m <= x
  {
    if |measures| == 1 then measures[0]
    else
      var earlier := Best(measures[..|measures| - 1]);
      assert forall x :: x in measures ==> x in measures[..|measures| - 1] || x == measures[|measures| - 1];
      if measures[|measures| - 1] < earlier then measures[|measures| - 1] else earlier
  }

  /** The best distance after the given measures: the sentinel before the first one. */
  function BestSoFar(measures: seq<int>): (b: Length)
    ensures measures == [] <==> b == MaxValue
  {
    if measures == [] then MaxValue else Finite(Best(measures))
  }

  /** A new measure becomes the best distance exactly when it is strictly below the best distance so far. */
  lemma BestSoFarAppend(measures: seq<int>, x: int)
    ensures BestSoFar(measures + [x]) == if Below(Finite(x), BestSoFar(measures)) then Finite(x) else BestSoFar(measures)
  {
    var longer := measures + [x];
    assert longer[..|longer| - 1] == measures;
    if measures == [] {
      assert longer == [x];
    }
  }

  /** The state of lines 183-190: working and best list are the first N + 1 entries of `t`, nothing is measured or tried. */
  function Initial(n: nat, t: seq<nat>): (s: SearchState)
    requires |t| >= n + 1
    ensures s.working == s.best == t[..n + 1] && s.bestDistance == s.before == s.after == MaxValue && s.tried == []
  {
    SearchState(t[..n + 1], t[..n + 1], MaxValue, MaxValue, MaxValue, [], [])
  }

  lemma InvInitial(inst: Instance, nn: seq<nat>)
    requires NearestNeighbourTour(inst, nn)
    ensures Inv(inst, Initial(inst.n, nn), nn[..inst.n + 1])
  {
  }

  /** The state after one sweep, its measure and the best update. */
  function Improved(inst: Instance, s: SearchState): (r: SearchState)
    requires |s.working| >= 1
    ensures |r.working| == |s.working| && (r.best == s.best || r.best == r.working)
  {
    var w := SweepFrom(inst, s.working, 1);
    var d := Finite(PathLength(inst, w));
    if Below(d, s.bestDistance) then SearchState(w, w, d, s.after, d, [], w)
    else s.(working := w, before := s.after, after := d)
  }

  /** One pass of the loop of `solve`: improve, then perturb when the sweep brought no improvement. */
  function Next(inst: Instance, s: SearchState, round: Round, nn: seq<nat>): (r: SearchState)
    requires ValidRound(inst.n, round) && |nn| == TourSize(inst.n) && Inv(inst, s, nn[..inst.n + 1])
    ensures r.before == s.after
    ensures var d := Finite(PathLength(inst, SweepFrom(inst, s.working, 1)));
      (Below(d, s.bestDistance) ==> r.bestDistance == d && r.published == SweepFrom(inst, s.working, 1))
      && (!Below(d, s.bestDistance) ==> r.bestDistance == s.bestDistance && r.published == s.published)
  {
    var m := Improved(inst, s);
    if AtMost(m.before, m.after) then Perturbed(inst, m, round, nn) else m
  }

  lemma CountOfRepeat(a: seq<nat>, p: nat, q: nat)
    requires p < q < |a|
    ensures a[p] == a[q] ==> multiset(a)[a[p]] >= 2
  {
    assert a == a[..q] + [a[q]] + a[q + 1..];
    assert a[..q][p] == a[p];
  }

  lemma {:induction false} CountInDistinct(b: seq<nat>, x: nat)
    requires Distinct(b)
    ensures multiset(b)[x] <= 1
  {
    if b != [] {
      var rest := b[1..];
      assert b == [b[0]] + rest;
      forall k | 0 <= k < |rest|
        ensures rest[k] != b[0]
      {
        assert rest[k] == b[k + 1];
      }
      assert Distinct(rest) by {
        forall p, q | 0 <= p < q < |rest|
          ensures rest[p] != rest[q]
        {
          assert rest[p] == b[p + 1] && rest[q] == b[q + 1];
        }
      }
      CountInDistinct(rest, x);
    }
  }

  /** A rearrangement of a list without repeats has no repeats. */
  lemma DistinctOfRearrangement(a: seq<nat>, b: seq<nat>)
    requires multiset(a) == multiset(b) && Distinct(b)
    ensures Distinct(a)
  {
    forall p, q | 0 <= p < q < |a|
      ensures a[p] != a[q]
    {
      CountOfRepeat(a, p, q);
      CountInDistinct(b, a[p]);
    }
  }

  /**
   * A closed rearrangement of the closed nearest-neighbour list of N >= 1 cities visits every city
   * exactly once in its first N entries, when the nearest-neighbour list does.
   */
  lemma ClosedArrangementVisitsAll(n: nat, nn: seq<nat>, t: seq<nat>)
    requires n >= 1 && |nn| == n + 1 && nn[n] == nn[0]
    requires Distinct(nn[..n]) && forall c: nat :: c < n ==> c in nn[..n]
    requires Arrangement(t, nn[..n + 1]) && Closed(t)
    ensures Distinct(t[..n]) && forall c: nat :: c < n ==> c in t[..n]
  {
    assert nn[..n + 1] == nn;
    DropLastOfRearrangement(t, nn);
    DistinctOfRearrangement(t[..n], nn[..n]);
    CoverOfRearrangement(t[..n], nn[..n], n);
  }

  /** Two rearrangements that end with the same entry still rearrange each other without it. */
  lemma DropLastOfRearrangement(a: seq<nat>, b: seq<nat>)
    requires |a| >= 1 && multiset(a) == multiset(b) && a[|a| - 1] == b[|b| - 1]
    ensures multiset(a[..|a| - 1]) == multiset(b[..|b| - 1])
  {
    assert a == a[..|a| - 1] + [a[|a| - 1]];
    assert b == b[..|b| - 1] + [b[|b| - 1]];
    assert multiset(a[..|a| - 1]) == multiset(a) - multiset{a[|a| - 1]};
    assert multiset(b[..|b| - 1]) == multiset(b) - multiset{b[|b| - 1]};
  }

  /** A rearrangement of a list holding every city below `n` holds every such city too. */
  lemma CoverOfRearrangement(a: seq<nat>, b: seq<nat>, n: nat)
    requires multiset(a) == multiset(b) && forall c: nat :: c < n ==> c in b
    ensures forall c: nat :: c < n ==> c in a
  {
    forall c: nat | c < n
      ensures c in a
    {
      assert c in b;
      assert c in multiset(b);
    }
  }

  /**
   * The lists of every state hold city indices when there is at least one city, and on a symmetric
   * metric instance each of them ends with the city it starts with.
   */
  lemma InvTours(inst: Instance, s: SearchState, nn: seq<nat>)
    requires NearestNeighbourTour(inst, nn) && Inv(inst, s, nn[..inst.n + 1])
    ensures inst.n >= 1 ==>
      Cities(s.working, inst.n) && Cities(s.best, inst.n)
      && (s.bestDistance != MaxValue ==> Cities(s.published, inst.n))
    ensures Symmetric(inst) && Metric(inst) ==>
      Closed(s.working) && Closed(s.best) && (s.bestDistance != MaxValue ==> Closed(s.published))
    ensures Symmetric(inst) && Metric(inst) && BelowLongMax(inst) && inst.n >= 1 ==>
      Distinct(s.working[..inst.n]) && (forall c: nat :: c < inst.n ==> c in s.working[..inst.n])
      && Distinct(s.best[..inst.n]) && (forall c: nat :: c < inst.n ==> c in s.best[..inst.n])
  {
    var n := inst.n;
    if n >= 1 {
      NearestNeighbourTourCities(inst, nn);
      assert nn[..n + 1] == nn;
      CitiesOfRearrangement(nn[..n + 1], s.working, n);
      CitiesOfRearrangement(nn[..n + 1], s.best, n);
      if s.bestDistance != MaxValue {
        CitiesOfRearrangement(nn[..n + 1], s.published, n);
      }
    }
    if Symmetric(inst) && Metric(inst) {
      MetricClosingGains(inst);
      if BelowLongMax(inst) && n >= 1 {
        NearestNeighbourTourIsPermutation(inst, nn);
        ClosedArrangementVisitsAll(n, nn, s.working);
        ClosedArrangementVisitsAll(n, nn, s.best);
      }
    }
  }

  /**
   * What the published list is once a distance was measured: a list of city indices; closed on a
   * symmetric metric instance; and then, with every distance below Long.MAX_VALUE, a tour through
   * every city exactly once followed by the return to the first city.
   */
  lemma PublishedTour(inst: Instance, s: SearchState, nn: seq<nat>)
    requires NearestNeighbourTour(inst, nn) && Inv(inst, s, nn[..inst.n + 1]) && s.bestDistance != MaxValue
    ensures inst.n >= 1 ==> Cities(s.published, inst.n)
    ensures Symmetric(inst) && Metric(inst) ==> Closed(s.published)
    ensures Symmetric(inst) && Metric(inst) && BelowLongMax(inst) && inst.n >= 1 ==>
      Distinct(s.published[..inst.n]) && forall c: nat :: c < inst.n ==> c in s.published[..inst.n]
  {
    InvTours(inst, s, nn);
    if Symmetric(inst) && Metric(inst) && BelowLongMax(inst) && inst.n >= 1 {
      NearestNeighbourTourIsPermutation(inst, nn);
      ClosedArrangementVisitsAll(inst.n, nn, s.published);
    }
  }

  /**
   * The states the search goes through after `|measured|` of its rounds, starting from the
   * nearest-neighbour tour `start`: each satisfies the invariant, each follows from the one
   * before by one pass of the outer loop, and `measured` holds the length each pass measured.
   */
  ghost predicate Traced(inst: Instance, rounds: seq<Round>, start: seq<nat>, states: seq<SearchState>, measured: seq<int>)
  {
    NearestNeighbourTour(inst, start)
    && (forall k :: 0 <= k < |rounds| ==> ValidRound(inst.n, rounds[k]))
    && |measured| <= |rounds| && |states| == |measured| + 1
    && states[0] == Initial(inst.n, start)
    && (forall k :: 0 <= k < |states| ==> Inv(inst, states[k], start[..inst.n + 1]))
    && forall k :: 0 <= k < |measured| ==> Stepped(inst, rounds, start, states, measured, k)
  }

  /** Pass `k` of the outer loop leads from `states[k]` to `states[k + 1]` and measures `measured[k]`. */
  ghost predicate Stepped(inst: Instance, rounds: seq<Round>, start: seq<nat>, states: seq<SearchState>, measured: seq<int>,
                          k: nat)
  {
    k < |rounds| && k < |measured| && k + 1 < |states|
    && ValidRound(inst.n, rounds[k]) && |start| == TourSize(inst.n)
    && Inv(inst, states[k], start[..inst.n + 1])
    && states[k + 1] == Next(inst, states[k], rounds[k], start)
    && measured[k] == PathLength(inst, SweepFrom(inst, states[k].working, 1))
  }

  /** One more pass of the outer loop extends the trace by the state it reaches. */
  lemma TracedStep(inst: Instance, rounds: seq<Round>, start: seq<nat>, states: seq<SearchState>, measured: seq<int>,
                   next: SearchState)
    requires Traced(inst, rounds, start, states, measured) && |measured| < |rounds|
    requires Inv(inst, next, start[..inst.n + 1])
    requires next == Next(inst, states[|measured|], rounds[|measured|], start)
    ensures Traced(inst, rounds, start, states + [next],
                   measured + [PathLength(inst, SweepFrom(inst, states[|measured|].working, 1))])
  {
    var i := |measured|;
    assert Inv(inst, states[i], start[..inst.n + 1]);
    var states', measured' := states + [next], measured + [PathLength(inst, SweepFrom(inst, states[i].working, 1))];
    forall k | 0 <= k < |states'|
      ensures Inv(inst, states'[k], start[..inst.n + 1])
    {
      if k < |states| {
        assert states'[k] == states[k];
      }
    }
    forall k | 0 <= k < |measured'|
      ensures Stepped(inst, rounds, start, states', measured', k)
    {
      if k < i {
        SteppedExtended(inst, rounds, start, states, measured, k, next, measured'[i]);
      } else {
        SteppedLast(inst, rounds, start, states, measured, next);
      }
    }
  }

  /** The pass that reaches `next` from the last state of a trace is a step of the grown trace. */
  lemma SteppedLast(inst: Instance, rounds: seq<Round>, start: seq<nat>, states: seq<SearchState>, measured: seq<int>,
                    next: SearchState)
    requires |states| == |measured| + 1 && |measured| < |rounds|
    requires ValidRound(inst.n, rounds[|measured|]) && |start| == TourSize(inst.n)
    requires Inv(inst, states[|measured|], start[..inst.n + 1])
    requires next == Next(inst, states[|measured|], rounds[|measured|], start)
    ensures Stepped(inst, rounds, start, states + [next],
                    measured + [PathLength(inst, SweepFrom(inst, states[|measured|].working, 1))], |measured|)
  {
    var i := |measured|;
    var states' := states + [next];
    assert states'[i] == states[i] && states'[i + 1] == next;
  }

  /** A pass already in a trace stays in it when the trace grows. */
  lemma SteppedExtended(inst: Instance, rounds: seq<Round>, start: seq<nat>, states: seq<SearchState>,
                        measured: seq<int>, k: nat, next: SearchState, measure: int)
    requires Stepped(inst, rounds, start, states, measured, k)
    ensures Stepped(inst, rounds, start, states + [next], measured + [measure], k)
  {
    assert (states + [next])[k] == states[k] && (states + [next])[k + 1] == states[k + 1];
    assert (measured + [measure])[k] == measured[k];
  }

  /** Across the passes of a trace the best distance never increases. */
  lemma TracedMonotone(inst: Instance, rounds: seq<Round>, start: seq<nat>, states: seq<SearchState>, measured: seq<int>)
    requires Traced(inst, rounds, start, states, measured)
    ensures forall k :: 0 <= k < |measured| ==> AtMost(states[k + 1].bestDistance, states[k].bestDistance)
  {
    forall k | 0 <= k < |measured|
      ensures AtMost(states[k + 1].bestDistance, states[k].bestDistance)
    {
      assert Stepped(inst, rounds, start, states, measured, k);
    }
  }

  /**
   * `solve` for as many passes of its loop as `rounds` has entries; each pass draws its random numbers
   * from its round. `states` is the state before each pass and after the last one, and `measured` the
   * distance each pass measured. The result is the best distance and the published list of the last
   * state.
   */
  method Solve(inst: Instance, rounds: seq<Round>)
    returns (meilleureDistance: Length, solution: seq<nat>, ghost start: seq<nat>, ghost measured: seq<int>,
             ghost states: seq<SearchState>)
    requires |rounds| >= 1 && forall k :: 0 <= k < |rounds| ==> ValidRound(inst.n, rounds[k])
    ensures NearestNeighbourTour(inst, start)
    ensures Traced(inst, rounds, start, states, measured) && |measured| == |rounds| && |states| == |rounds| + 1
    ensures meilleureDistance == states[|rounds|].bestDistance && solution == states[|rounds|].published
    ensures meilleureDistance == BestSoFar(measured) && meilleureDistance == Finite(PathLength(inst, solution))
    ensures Arrangement(solution, start[..inst.n + 1])
    ensures inst.n >= 1 ==> Cities(solution, inst.n)
    ensures Symmetric(inst) && Metric(inst) ==> Closed(solution)
    ensures Symmetric(inst) && Metric(inst) && BelowLongMax(inst) && inst.n >= 1 ==>
      Distinct(solution[..inst.n]) && forall c: nat :: c < inst.n ==> c in solution[..inst.n]
  {
    var trajetInitial := Initialisation(inst);
    start := trajetInitial;
    var prefix := trajetInitial[..inst.n + 1];
    var s := SearchState(prefix, prefix, MaxValue, MaxValue, MaxValue, [], []);
    InvInitial(inst, start);
    measured := [];
    states := [s];
    var iteration := 0;
    while iteration < |rounds|
      invariant iteration <= |rounds| && |measured| == iteration
      invariant Traced(inst, rounds, start, states, measured) && states[iteration] == s
      invariant s.bestDistance == BestSoFar(measured)
    {
      s := Improve(inst, s, prefix);
      var measure := s.after.value;
      BestSoFarAppend(measured, measure);
      if AtMost(s.before, s.after) {
        s := Perturb(inst, s, rounds[iteration], start);
      }
      TracedStep(inst, rounds, start, states, measured, s);
      measured := measured + [measure];
      states := states + [s];
      iteration := iteration + 1;
    }
    meilleureDistance, solution := s.bestDistance, s.published;
    PublishedTour(inst, s, start);
  }
}

=== FILE: sweep.dfy ===
/** One first-improvement 2-opt sweep over all position pairs of the working list. */
module TwoOptSweep {
  import opened Distances
  import opened Tours
  import opened Reversal
  import opened TwoOptGain

  /** The body of the inner loop: reverse positions i..j exactly when the gain is negative. */
  function TryMove(inst: Instance, t: seq<nat>, i: nat, j: nat): (r: seq<nat>)
    requires 1 <= i < j < |t|
    ensures |r| == |t| && r[0] == t[0]
  {
    ReversedAt(t, i, j);
    if Gain(inst, t, i, j) < 0 then Reversed(t, i, j) else t
  }

  /** The pairs (i, j), (i, j + 1), ..., (i, |t| - 1) in this order, each acting on the list the previous one left. */
  function SweepRow(inst: Instance, t: seq<nat>, i: nat, j: nat): (r: seq<nat>)
    requires 1 <= i < j <= |t|
    ensures |r| == |t| && r[0] == t[0]
    decreases |t| - j
  {
    if j == |t| then t else SweepRow(inst, TryMove(inst, t, i, j), i, j + 1)
  }

  /** The rows i, i + 1, ..., |t| - 1 in this order: every pair i <= i' < j' < |t| in increasing i', then j'. */
  function SweepFrom(inst: Instance, t: seq<nat>, i: nat): (r: seq<nat>)
    requires 1 <= i <= |t|
    ensures |r| == |t| && r[0] == t[0]
    decreases |t| - i
  {
    if i == |t| then t else SweepFrom(inst, SweepRow(inst, t, i, i + 1), i + 1)
  }

  /** The nested loops of `solve` over 1 <= i < j <= N, where N is the number of cities and the list has N + 1 entries. */
  method Sweep(inst: Instance, trajet: seq<nat>) returns (ameliorationTrajet: seq<nat>)
    requires |trajet| == inst.n + 1
    ensures ameliorationTrajet == SweepFrom(inst, trajet, 1)
    ensures multiset(ameliorationTrajet) == multiset(trajet) && ameliorationTrajet[0] == trajet[0]
  {
    ameliorationTrajet := trajet;
    var i := 1;
    while i < inst.n + 1
      invariant 1 <= i <= inst.n + 1
      invariant |ameliorationTrajet| == |trajet|
      invariant SweepFrom(inst, ameliorationTrajet, i) == SweepFrom(inst, trajet, 1)
    {
      var j := i + 1;
      while j < inst.n + 1
        invariant i + 1 <= j <= inst.n + 1
        invariant |ameliorationTrajet| == |trajet|
        invariant SweepFrom(inst, SweepRow(inst, ameliorationTrajet, i, j), i + 1) == SweepFrom(inst, trajet, 1)
      {
        if Gain(inst, ameliorationTrajet, i, j) < 0 {
          ameliorationTrajet := RenverseParcours(i, j, ameliorationTrajet);
        }
        j := j + 1;
      }
      i := i + 1;
    }
    SweepPermutes(inst, trajet, 1);
  }

  lemma {:induction false} SweepRowPermutes(inst: Instance, t: seq<nat>, i: nat, j: nat)
    requires 1 <= i < j <= |t|
    ensures multiset(SweepRow(inst, t, i, j)) == multiset(t)
    decreases |t| - j
  {
    if j < |t| {
      var next := TryMove(inst, t, i, j);
      assert SweepRow(inst, t, i, j) == SweepRow(inst, next, i, j + 1);
      if Gain(inst, t, i, j) < 0 {
        ReversedPermutes(t, i, j);
      }
      SweepRowPermutes(inst, next, i, j + 1);
    }
  }

  /** A sweep only rearranges the entries of the list. */
  lemma {:induction false} SweepPermutes(inst: Instance, t: seq<nat>, i: nat)
    requires 1 <= i <= |t|
    ensures multiset(SweepFrom(inst, t, i)) == multiset(t)
    decreases |t| - i
  {
    if i < |t| {
      SweepRowPermutes(inst, t, i, i + 1);
      SweepPermutes(inst, SweepRow(inst, t, i, i + 1), i + 1);
    }
  }

  /** No reversal the sweep tries would shorten the tour. */
  ghost predicate LocalOptimum(inst: Instance, t: seq<nat>)
  {
    forall i, j :: 1 <= i < j < |t| ==> Gain(inst, t, i, j) >= 0
  }

  lemma {:induction false} SweepRowKeepsOptimum(inst: Instance, t: seq<nat>, i: nat, j: nat)
    requires 1 <= i < j <= |t|
    requires forall j' :: j <= j' < |t| ==> Gain(inst, t, i, j') >= 0
    ensures SweepRow(inst, t, i, j) == t
    decreases |t| - j
  {
    if j < |t| {
      assert TryMove(inst, t, i, j) == t;
      SweepRowKeepsOptimum(inst, t, i, j + 1);
    }
  }

  /** A sweep leaves a 2-opt local optimum unchanged. */
  lemma {:induction false} SweepKeepsOptimum(inst: Instance, t: seq<nat>, i: nat)
    requires 1 <= i <= |t| && LocalOptimum(inst, t)
    ensures SweepFrom(inst, t, i) == t
    decreases |t| - i
  {
    if i < |t| {
      SweepRowKeepsOptimum(inst, t, i, i + 1);
      SweepKeepsOptimum(inst, t, i + 1);
      calc {
        SweepFrom(inst, t, i);
        SweepFrom(inst, SweepRow(inst, t, i, i + 1), i + 1);
        { assert SweepRow(inst, t, i, i + 1) == t; }
        SweepFrom(inst, t, i + 1);
      }
    }
  }

  lemma {:induction false} SweepRowNoLonger(inst: Instance, t: seq<nat>, i: nat, j: nat)
    requires Symmetric(inst) && 1 <= i < j <= |t|
    ensures CycleLength(inst, SweepRow(inst, t, i, j)) <= CycleLength(inst, t)
    decreases |t| - j
  {
    if j < |t| {
      var next := TryMove(inst, t, i, j);
      SweepRowNoLonger(inst, next, i, j + 1);
      if Gain(inst, t, i, j) < 0 {
        GainIsCycleDelta(inst, t, i, j);
      }
    }
  }

  lemma {:induction false} SweepRowShortensCycle(inst: Instance, t: seq<nat>, i: nat, j: nat)
    requires Symmetric(inst) && 1 <= i < j <= |t|
    requires exists j' :: j <= j' < |t| && Gain(inst, t, i, j') < 0
    ensures CycleLength(inst, SweepRow(inst, t, i, j)) < CycleLength(inst, t)
    decreases |t| - j
  {
    var next := TryMove(inst, t, i, j);
    if Gain(inst, t, i, j) < 0 {
      GainIsCycleDelta(inst, t, i, j);
      SweepRowNoLonger(inst, next, i, j + 1);
    } else {
      var j' :| j <= j' < |t| && Gain(inst, t, i, j') < 0;
      assert j + 1 <= j';
      SweepRowShortensCycle(inst, t, i, j + 1);
    }
  }

  /**
   * With symmetric distances every applied reversal shortens the list read as a cycle, so a sweep never
   * lengthens it, and shortens it whenever some pair it visits has a negative gain.
   */
  lemma {:induction false} SweepShortensCycle(inst: Instance, t: seq<nat>, i: nat)
    requires Symmetric(inst) && 1 <= i <= |t|
    ensures CycleLength(inst, SweepFrom(inst, t, i)) <= CycleLength(inst, t)
    ensures (exists i', j' :: i <= i' < j' < |t| && Gain(inst, t, i', j') < 0) ==>
      CycleLength(inst, SweepFrom(inst, t, i)) < CycleLength(inst, t)
    decreases |t| - i
  {
    if i < |t| {
      var row := SweepRow(inst, t, i, i + 1);
      SweepRowNoLonger(inst, t, i, i + 1);
      SweepShortensCycle(inst, row, i + 1);
      if exists i', j' :: i <= i' < j' < |t| && Gain(inst, t, i', j') < 0 {
        if exists j' :: i + 1 <= j' < |t| && Gain(inst, t, i, j') < 0 {
          SweepRowShortensCycle(inst, t, i, i + 1);
        } else {
          SweepRowKeepsOptimum(inst, t, i, i + 1);
          var i', j' :| i <= i' < j' < |t| && Gain(inst, t, i', j') < 0;
          assert i + 1 <= i';
        }
      }
    }
  }

  /** The gain of the window from position i to the last position. */
  function ClosingGain(inst: Instance, t: seq<nat>, i: nat): int
    requires 1 <= i < |t| - 1
  {
    Gain(inst, t, i, |t| - 1)
  }

  /** No window that reaches the last position of a list starting and ending with the same city has a negative gain. */
  ghost predicate ClosingGainsNonNegative(inst: Instance) {
    forall t: seq<nat>, i: nat :: 1 <= i < |t| - 1 && t[0] == t[|t| - 1] ==> ClosingGain(inst, t, i) >= 0
  }

  lemma MetricClosingGains(inst: Instance)
    requires Symmetric(inst) && Metric(inst)
    ensures ClosingGainsNonNegative(inst)
  {
    forall t: seq<nat>, i: nat | 1 <= i < |t| - 1 && t[0] == t[|t| - 1]
      ensures ClosingGain(inst, t, i) >= 0
    {
      ClosingGainNonNegative(inst, t, i);
    }
  }

  lemma {:induction false} SweepRowKeepsClosing(inst: Instance, t: seq<nat>, i: nat, j: nat)
    requires ClosingGainsNonNegative(inst) && 1 <= i < j <= |t| && t[0] == t[|t| - 1]
    ensures SweepRow(inst, t, i, j)[|t| - 1] == t[|t| - 1]
    decreases |t| - j
  {
    if j < |t| {
      var next := TryMove(inst, t, i, j);
      if j == |t| - 1 {
        assert ClosingGain(inst, t, i) >= 0;
      }
      if Gain(inst, t, i, j) < 0 {
        ReversedAt(t, i, j);
      }
      assert next[|t| - 1] == t[|t| - 1];
      SweepRowKeepsClosing(inst, next, i, j + 1);
    }
  }

  lemma {:induction false} SweepFromKeepsClosing(inst: Instance, t: seq<nat>, i: nat)
    requires ClosingGainsNonNegative(inst) && 1 <= i <= |t| && t[0] == t[|t| - 1]
    ensures SweepFrom(inst, t, i)[|t| - 1] == t[|t| - 1]
    decreases |t| - i
  {
    if i < |t| {
      SweepRowKeepsClosing(inst, t, i, i + 1);
      SweepFromKeepsClosing(inst, SweepRow(inst, t, i, i + 1), i + 1);
    }
  }

  /**
   * On a metric instance a sweep never moves the closing entry: a list that starts and ends with
   * the same city still does after the sweep.
   */
  lemma SweepKeepsClosing(inst: Instance, t: seq<nat>)
    requires Symmetric(inst) && Metric(inst) && |t| >= 1 && t[0] == t[|t| - 1]
    ensures SweepFrom(inst, t, 1)[|t| - 1] == t[0]
  {
    MetricClosingGains(inst);
    SweepFromKeepsClosing(inst, t, 1);
  }

  /** With symmetric distances, a sweep returns its input exactly when the input is a 2-opt local optimum. */
  lemma SweepFixedExactlyAtOptimum(inst: Instance, t: seq<nat>)
    requires Symmetric(inst) && |t| >= 1
    ensures SweepFrom(inst, t, 1) == t <==> LocalOptimum(inst, t)
  {
    if LocalOptimum(inst, t) {
      SweepKeepsOptimum(inst, t, 1);
    } else {
      var i, j :| 1 <= i < j < |t| && Gain(inst, t, i, j) < 0;
      SweepShortensCycle(inst, t, 1);
    }
  }
}

=== FILE: tours.dfy ===
/** Lengths of a tour stored as a list of city indices. */
module Tours {
  import opened Distances

  /** The sum of the first `m` edges of `t`: the distances from t[k] to t[k + 1] for k < m. */
  function Edges(inst: Instance, t: seq<nat>, m: nat): int
    requires m < |t|
  {
    if m == 0 then 0 else Edges(inst, t, m - 1) + Dist(inst, t[m - 1], t[m])
  }

  /** The open path length: the sum of the distances between consecutive entries. */
  function PathLength(inst: Instance, t: seq<nat>): int
  {
    if |t| == 0 then 0 else Edges(inst, t, |t| - 1)
  }

  /** The length of the list read as a cycle: the open path plus the edge from the last entry back to the first. */
  function CycleLength(inst: Instance, t: seq<nat>): int
    requires |t| >= 1
  {
    PathLength(inst, t) + Dist(inst, t[|t| - 1], t[0])
  }

  /** The first `m` edges depend only on the first `m + 1` entries. */
  lemma {:induction false} EdgesOfCommonPrefix(inst: Instance, t: seq<nat>, u: seq<nat>, m: nat)
    requires m < |t| && m < |u| && forall k :: 0 <= k <= m ==> t[k] == u[k]
    ensures Edges(inst, t, m) == Edges(inst, u, m)
  {
    if m > 0 {
      EdgesOfCommonPrefix(inst, t, u, m - 1);
    }
  }

  /** The edges of a + b past the end of a: the joining edge, then the edges of b. */
  lemma {:induction false} EdgesAcrossJoin(inst: Instance, a: seq<nat>, b: seq<nat>, k: nat)
    requires |a| >= 1 && k < |b|
    ensures Edges(inst, a + b, |a| + k)
         == Edges(inst, a + b, |a| - 1) + Dist(inst, a[|a| - 1], b[0]) + Edges(inst, b, k)
  {
    var ab := a + b;
    assert ab[|a| - 1] == a[|a| - 1] && ab[|a| + k] == b[k];
    if k > 0 {
      assert ab[|a| + k - 1] == b[k - 1];
      EdgesAcrossJoin(inst, a, b, k - 1);
    }
  }

  /** Joining two paths adds the one edge between them. */
  lemma PathLengthAppend(inst: Instance, a: seq<nat>, b: seq<nat>)
    requires |a| >= 1 && |b| >= 1
    ensures PathLength(inst, a + b)
         == PathLength(inst, a) + Dist(inst, a[|a| - 1], b[0]) + PathLength(inst, b)
  {
    var ab := a + b;
    assert forall k :: 0 <= k < |a| ==> ab[k] == a[k];
    EdgesOfCommonPrefix(inst, ab, a, |a| - 1);
    EdgesAcrossJoin(inst, a, b, |b| - 1);
  }

  /** A path cut in three pieces: the pieces plus the two edges joining them. */
  lemma PathLengthSplit(inst: Instance, a: seq<nat>, s: seq<nat>, b: seq<nat>)
    requires |a| >= 1 && |s| >= 1 && |b| >= 1
    ensures PathLength(inst, a + s + b)
         == PathLength(inst, a) + Dist(inst, a[|a| - 1], s[0]) + PathLength(inst, s)
            + Dist(inst, s[|s| - 1], b[0]) + PathLength(inst, b)
  {
    assert (a + s)[|a + s| - 1] == s[|s| - 1];
    PathLengthAppend(inst, a, s);
    PathLengthAppend(inst, a + s, b);
  }

  /** The accumulation loop of `solve` that measures the working list after a sweep. */
  method MeasurePath(inst: Instance, t: seq<nat>) returns (total: int)
    ensures total == PathLength(inst, t)
  {
    total := 0;
    var i := 0;
    while i < |t| - 1
      invariant 0 <= i && (|t| == 0 || i < |t|)
      invariant total == if |t| == 0 then 0 else Edges(inst, t, i)
    {
      total := total + Dist(inst, t[i], t[i + 1]);
      i := i + 1;
    }
  }
}
